=== FILE: README.md ===
# BlocksFalling sand panel, modelled in Dafny

A model of the simulation state of `SandPanel` in the BlocksFalling
repository. This is a falling-sand toy. The mouse position spawns
`UNIT_SIZE` squares on a reference grid, a tick moves every moving square one
gravity step and settles the ones that reach the boundary or overlap a settled
square, and the keys A/S/D/W turn gravity. Turning gravity releases every
settled square. The key T forgets the settled squares.

The model follows the Java code as written:

- a square comes to rest one step back from where it triggered, so under DOWN
  a square falling onto the floor from grid rows 0–33 rests at y = 675, while
  one spawned alone in its column in row 34 or 35 triggers on its first tick
  and rests where it was spawned, at y = 680 or y = 700;
- a square is stepped back and appended to the static list once for every
  condition it triggers;
- `removeAll` removes by position, not by object;
- spawning does not check for squares already there.

## How the state is represented

`java.awt.Rectangle` is a mutable object, and the two lists hold references to
it. Object identity matters here. A square that triggers twice is appended
twice to `staticSquares` as the same object. After a gravity change the moving
list holds two references to it, and `moveCurrentSquares` then moves it two
steps per tick.

The model keeps this identity with an arena. `Panel.rects` holds the position
of every Rectangle ever created, in creation order. `squares` and
`staticSquares` are sequences of indices into that arena, and they may repeat
an index. Width and height are always `UNIT_SIZE`, so a square is its top-left
`Point`.

Files and modules:

- `geometry.dfy` (`Geometry`): the screen constants, `Rectangle.contains` and
  `Rectangle.intersects` for unit squares, the reference grid and spawn
  snapping.
- `gravity.dfy` (`Gravity`): the four directions, the `GRAVITY` table with its
  direction map, and the key-to-direction switch.
- `panel.dfy` (`SandPanel`): the panel state and its operations: spawn,
  `moveCurrentSquares`, `checkCollisions`, one tick, the gravity-change keys,
  `cleanReset` and `keyPressed`.
- `simulation.dfy` (`Simulation`): event sequences and repeated ticks. Lemmas
  about a single moving square falling freely and coming to rest.
- `scenarios.dfy` (`Scenarios`): whole runs with concrete numbers. A square
  falls from grid rows 0–33 to y = 675, and a second one spawned in its
  column in grid rows 0–32 stacks on top of it at y = 655; one spawned in
  row 33 rests at 660, overlapping it, and one spawned in row 34 rests at
  675, on the first square's own position. The resting square slides right
  after a gravity change. Also the two effects of how `checkCollisions`
  fills and empties its lists: aliasing and removal by value.

In three places the code does not do what one might expect of a
falling-sand game, and the model follows the code:

- **Rest position.** One might expect a square to rest flush with the bottom edge, at y = 680 = `SCREEN_HEIGHT - UNIT_SIZE`. Under DOWN a square falling from grid rows 0–33 rests at 675 (`SCREEN_HEIGHT - UNIT_SIZE - UNIT_SIZE/4`), one step higher. A square spawned alone in its column in row 34 or 35 triggers the boundary on its first tick and rests in place, at 680 or at 700 below the visible panel.
- **Spawn area.** One might expect spawning to be limited to the visible 500 × 700 panel. The grid has rows 0..35 and columns 0..25 inclusive (`i <= rows`, `j <= columns`), so spawning accepts [0, 520) × [0, 720).
- **No occupancy check.** One might expect a taken cell to refuse a new square. A square may be spawned on a cell already taken by a moving or a settled square.

One might also expect that a square leaves the moving list only when it settles. That does not hold in the code: a square that triggers nothing can still leave the moving list. `removeAll` drops every moving square whose position equals that of a square settled in the same tick, and such a square does not join the static list (`Scenarios.ValueEqualSquareIsDropped`).

## Model

| member | source | states |
|---|---|---|
| Geometry.IntersectsUnitSquares | src/SandPanel.java:168 | two unit squares intersect iff their corners differ by less than U on both axes, and the relation is symmetric |
| Geometry.ContainsOnLattice | src/SandPanel.java:184 | a square on the U-lattice contains a point iff it is the square at (x − x mod U, y − y mod U) |
| Geometry.InitializeReferenceSquares | src/SandPanel.java:72-87 | the nested loops produce (rows+1)·(columns+1) cells, row by row, and cell i·26 + j sits at (j·U, i·U); the result is the grid that spawning searches |
| Geometry.FirstContaining | src/SandPanel.java:183-194 | the loop finds nothing exactly when no cell contains the point; otherwise it returns the first cell that does |
| Geometry.SnapToGrid | src/SandPanel.java:181-195 | a point in [0, 520) × [0, 720) finds the cell at (x − x mod U, y − y mod U); any other point, negative ones included, finds none |
| Gravity.Vector | src/SandPanel.java:22-27 | every table vector has exactly one non-zero component, of magnitude U/4; it is horizontal for R/L, positive for D/R and negative for U/L |
| Gravity.VectorInjective | src/SandPanel.java:43-48 | the direction map gives distinct vectors to distinct directions |
| Gravity.DirectionOfKey | src/SandPanel.java:209-219 | A, S, D and W select L, D, R and U, and no other key selects a direction |
| SandPanel.Initial | src/SandPanel.java:28-30 | the starting state is valid: gravity DOWN with its vector, and both lists empty |
| SandPanel.Spawn | src/SandPanel.java:181-195 | inside the grid, exactly one new square at the snapped cell is appended to the moving list, and nothing else changes; outside the grid the state is unchanged; validity is preserved |
| SandPanel.MoveEach | src/SandPanel.java:143-146 | every Rectangle moves once per occurrence in the list; Rectangles not in the list stay put |
| SandPanel.MovedOnce | src/SandPanel.java:143-146 | a Rectangle listed once moves by exactly the gravity vector |
| SandPanel.MovedTwice | src/SandPanel.java:143-146 | a Rectangle listed twice moves by the vector twice |
| SandPanel.MoveCurrentSquares | src/SandPanel.java:141-147 | every Rectangle moves by (gravityX, gravityY) once per occurrence in the moving list, so a Rectangle listed twice moves twice and one not listed stays put; in a list without repeats each moving square moves exactly one vector; the lists and the gravity are unchanged |
| SandPanel.SettleAgainst | src/SandPanel.java:167-174 | the square is hit iff it overlaps some static square at its starting position; it ends stepped back as many times as it counts hits, at most once per static square |
| SandPanel.SettleAgainstSnoc | src/SandPanel.java:167-174 | the static squares are tested in list order, each at the position the earlier hits left the square at, and one more static square steps it back once more exactly when it overlaps there |
| SandPanel.AtBoundaryAhead | src/SandPanel.java:154-158 | the boundary test fires iff the square has reached the edge it is moving towards: bottom for a positive y vector, right for a positive x vector, top and left for negative ones |
| SandPanel.Resolve | src/SandPanel.java:154-174 | the square triggers iff it is at the boundary of the active direction or overlaps a static square; it ends stepped back once per trigger; a boundary hit counts one and steps the square back before the static squares are tested, and without one the count is that of the static squares alone |
| SandPanel.ResolveAll | src/SandPanel.java:153-175 | only moving squares change position, and only moving squares are queued for settling |
| SandPanel.ResolveAllPerSquare | src/SandPanel.java:153-175 | in a list without repeats, each square ends where its own resolution against the pre-tick static squares puts it, and is queued once per trigger |
| SandPanel.RemoveAll | src/SandPanel.java:177 | the result is the list with some entries dropped, in the original order; an entry survives, with all its copies, iff no queued square has its position |
| SandPanel.RemovedOnceListed | src/SandPanel.java:177 | an entry of a list without repeats stays iff its position differs from every queued square, so a queued entry always leaves |
| SandPanel.CheckCollisions | src/SandPanel.java:149-179 | the static squares keep their positions and their place at the head of the static list; only moving squares are appended; the moving list only loses entries and keeps the order of the rest; the panel stays well formed |
| SandPanel.SettledLeaveMoving | src/SandPanel.java:177-178 | after the removal no moving square is also in the new static list |
| SandPanel.CheckCollisionsPerSquare | src/SandPanel.java:149-179 | in a list without repeats, a square is appended once per trigger, and stays moving iff no square settled in this check ended at its position |
| SandPanel.Tick | src/SandPanel.java:132-134 | a tick keeps the panel well formed; no static square moves or leaves the static list; only moving squares settle; the moving list keeps the order of the squares that stay; the gravity is unchanged |
| SandPanel.TickPerSquare | src/SandPanel.java:132-134 | in a list without repeats, each square moves one step and is then resolved against the static squares of the start of the tick |
| SandPanel.ChangeGravity | src/SandPanel.java:221-224 | gravity is set to the direction and its vector; the moving list becomes the old moving list followed by the old static list, and the static list is emptied, even when the direction is unchanged |
| SandPanel.CleanReset | src/SandPanel.java:229-231 | the static list is emptied; the moving list, the positions and the gravity are unchanged |
| SandPanel.KeyPressed | src/SandPanel.java:199-226 | T resets, A/S/D/W change gravity, every other key leaves the state unchanged; validity is preserved |
| Simulation.Run | src/SandPanel.java:128-138 | any interleaving of spawns, ticks and key presses keeps the panel valid, and the arena of created Rectangles only grows |
| Simulation.SingleSquareTick | src/SandPanel.java:141-179 | with one moving square, a tick moves it one step and resolves it; if it triggers, it leaves the moving list and is appended once per trigger |
| Simulation.FreeFall | src/SandPanel.java:141-147 | while every position ahead is free, t ticks move the only moving square t steps and change nothing else |
| Simulation.FallThenRest | src/SandPanel.java:149-179 | a square free for n − 1 steps that triggers on step n ends, after n ticks, settled where it was stepped back to |
| Scenarios.SpawnedSquareRestsOnFloor | src/SandPanel.java:155-163 | under DOWN in an empty panel, a square spawned in grid rows 0–33 (y0 < 680) falls one step per tick and after (700 − 20 − y0)/5 ticks rests at y = 675 in its column |
| Scenarios.LowRowRestsInPlace | src/SandPanel.java:155-163 | a square alone in grid row 34 or 35 (y0 ≥ 680) triggers the boundary on its first tick and rests where it was spawned, at y = 680 or y = 700 |
| Scenarios.SecondSquareStacks | src/SandPanel.java:167-174 | a second square spawned in the same column in grid rows 0–32 (y1 < 655) comes to rest on top of the first, at y = 655 |
| Scenarios.Row33SquareRestsOverlapping | src/SandPanel.java:155-174 | a second square spawned in row 33 (y1 = 660) overlaps the first after its first move, is stepped back once and rests at y = 660, overlapping the first by one step |
| Scenarios.Row34SquareRestsOnFirst | src/SandPanel.java:155-174 | a second square spawned in row 34 (y1 = 680) triggers the boundary and the first square, is stepped back twice onto the first square's position, y = 675, and is appended to the static list twice |
| Scenarios.RotatedSquareSlidesRight | src/SandPanel.java:209-225 | for a square resting in grid columns 0–23 (x0 < 480), after D is pressed it moves again and slides to x = 475, keeping its height |
| Scenarios.SettleSeesEarlierSteps | src/SandPanel.java:167-174 | a square overlapping two static squares on one spot by exactly one step is stepped back once, clear of the second, and counts one hit |
| Scenarios.BoundaryThenStatic | src/SandPanel.java:154-174 | a square one step past the floor line, above a static square on that line, triggers both the boundary and the static square, is stepped back twice and counts two hits |
| Scenarios.SecondSquareOnRow34 | src/SandPanel.java:149-179 | of two squares spawned on one row-34 cell, the second, moving past the settled first, rests at y = 675 and is appended to the static list twice |
| Scenarios.DoubleHitListedTwice | src/SandPanel.java:160-172 | a square that overlaps two static squares on one spot by more than one step is stepped back twice and appended to the static list twice |
| Scenarios.ListedTwiceResolves | src/SandPanel.java:153-175 | a Rectangle listed twice as moving is resolved once per entry, the second entry from where the first left it: at the floor line the first entry steps it back and the second finds it clear |
| Scenarios.ListedTwiceSettlesOnce | src/SandPanel.java:149-179 | for that Rectangle the whole check appends it once to the static list and removes both of its moving entries |
| Scenarios.AliasedSquareMovesTwice | src/SandPanel.java:223 | a Rectangle listed twice as static is listed twice as moving after a gravity change, and the next move takes it two steps |
| Scenarios.ValueEqualSquareIsDropped | src/SandPanel.java:177 | a square that triggers nothing but ends where a settling square ends is dropped from the moving list without joining the static list |

## Left out

- Rendering (`paintComponent`, `draw`) and `Frame.java`: these are window setup and drawing only.
- The `run` loop's timing: it uses `System.nanoTime` and a `double` delta accumulator on its own thread. A tick is an explicit step (`Tick`, `Ticks`, the `TickOnce` event) instead.
- The spawn timer, `MouseInfo` and the screen-location arithmetic. Spawning takes the panel-relative point as a parameter.
- The space bar: it only starts or stops the spawn timer, which is not part of the state, so `KeyPressed` leaves the state unchanged for it.
- Concurrency: the tick thread and the event thread share the lists without synchronisation, and `draw` copies the static list defensively. The model is sequential.
- 32-bit `int` wrap-around: coordinates are unbounded integers. They stay within a few hundred pixels of the screen in every run the model describes.
- `Rectangle` width and height: they are always `UNIT_SIZE`, so a square is its top-left corner.
- SandPanel.CheckCollisions: the contract gives per-square positions and multiplicities (through `CheckCollisionsPerSquare`) only for moving lists without repeats. For lists with repeats it states only the invariants listed above.
- SandPanel.Tick: like `CheckCollisions`, its per-square statement (`TickPerSquare`) assumes a moving list without repeats.
- SandPanel.ResolveAll: the closed per-square form (`ResolveAllPerSquare`) assumes a moving list without repeats. A Rectangle listed twice is resolved once per entry, each entry from the position the earlier ones left it at. The function's body follows the code for that case, but the only stated instance is `Scenarios.ListedTwiceResolves`.
- SandPanel.SettleAgainst: its own contract fixes the hit count only as zero or not, bounded by the number of static squares. The exact count follows from `SettleAgainstSnoc`, one static square at a time. There is no closed form in terms of the starting position.

=== FILE: geometry.dfy ===
/** Screen constants, the two java.awt.Rectangle predicates the panel uses,
    and the reference grid that mouse positions are snapped to. */
module Geometry {

  datatype Option<+T> = None | Some(value: T)

  const ScreenWidth: int := 500
  const ScreenHeight: int := 700
  const UnitSize: int := 20

  /** Number of whole cells across the screen; the grid has one more of each. */
  const Rows: int := ScreenHeight / UnitSize
  const Columns: int := ScreenWidth / UnitSize

  /** Cells per grid row (columns 0..Columns inclusive). */
  const RowLength: int := Columns + 1
  /** Number of reference cells (rows 0..Rows inclusive). */
  const GridSize: int := (Rows + 1) * RowLength

  /** The top-left corner of a Rectangle; width and height are always UnitSize. */
  datatype Point = Point(x: int, y: int)

  function Translate(q: Point, dx: int, dy: int): Point {
    Point(q.x + dx, q.y + dy)
  }

  /** The square at q moved k times by (dx, dy), one step at a time. */
  function Advance(q: Point, k: nat, dx: int, dy: int): Point
    decreases k
  {
    if k == 0 then q else Translate(Advance(q, k - 1, dx, dy), dx, dy)
  }

  /** Moving once and then k times is moving k + 1 times. */
  lemma {:induction false} AdvanceOnceMore(q: Point, k: nat, dx: int, dy: int)
    ensures Advance(Translate(q, dx, dy), k, dx, dy) == Advance(q, k + 1, dx, dy)
    decreases k
  {
    if k > 0 {
      AdvanceOnceMore(q, k - 1, dx, dy);
    }
  }

  /** k moves add up to k times the vector. */
  lemma {:induction false} AdvanceClosed(q: Point, k: nat, dx: int, dy: int)
    ensures Advance(q, k, dx, dy) == Translate(q, k * dx, k * dy)
    decreases k
  {
    if k > 0 {
      AdvanceClosed(q, k - 1, dx, dy);
      MulSucc(k - 1, dx);
      MulSucc(k - 1, dy);
    }
  }

  lemma MulSucc(c: int, d: int)
    ensures (c + 1) * d == c * d + d
  {
  }

  /** Rectangle.contains(px, py) for a UnitSize square at r. */
  predicate Contains(r: Point, px: int, py: int) {
    r.x <= px < r.x + UnitSize && r.y <= py < r.y + UnitSize
  }

  /** Rectangle.intersects for two UnitSize squares, written as the four
      comparisons of the library routine (no overflow at these magnitudes). */
  predicate Intersects(a: Point, b: Point) {
    b.x + UnitSize > a.x && b.y + UnitSize > a.y && a.x + UnitSize > b.x && a.y + UnitSize > b.y
  }

  function Abs(n: int): nat {
    if n < 0 then -n else n
  }

  /** For two UnitSize squares, Rectangle.intersects is overlap on both
      axes: the corners are less than UnitSize apart in x and in y. */
  lemma IntersectsUnitSquares(a: Point, b: Point)
    ensures Intersects(a, b) <==> Abs(a.x - b.x) < UnitSize && Abs(a.y - b.y) < UnitSize
    ensures Intersects(a, b) <==> Intersects(b, a)
  {
  }

  /** Rectangle.contains of a cell on the UnitSize lattice holds exactly for
      the points that snap to that cell. */
  lemma ContainsOnLattice(r: Point, px: int, py: int)
    requires r.x % UnitSize == 0 && r.y % UnitSize == 0
    ensures Contains(r, px, py) <==> r == Point(px - px % UnitSize, py - py % UnitSize)
  {
    if Contains(r, px, py) {
      AxisSnap(r.x / UnitSize, px);
      AxisSnap(r.y / UnitSize, py);
    }
  }

  /** Cell k of the reference grid, which is laid out row by row. */
  function Cell(k: int): Point {
    Point((k % RowLength) * UnitSize, (k / RowLength) * UnitSize)
  }

  /** Closed form of the reference grid. */
  function ReferenceGrid(): seq<Point> {
    seq(GridSize, k => Cell(k))
  }

  /** The points that some reference cell contains. */
  predicate InGrid(px: int, py: int) {
    0 <= px < RowLength * UnitSize && 0 <= py < (Rows + 1) * UnitSize
  }

  /** The nested row/column loop that builds the reference squares. */
  method InitializeReferenceSquares() returns (refs: seq<Point>)
    ensures |refs| == GridSize
    ensures forall k :: 0 <= k < |refs| ==> refs[k] == Cell(k)
    ensures forall i, j :: 0 <= i <= Rows && 0 <= j <= Columns ==> refs[i * RowLength + j] == Point(j * UnitSize, i * UnitSize)
    ensures refs == ReferenceGrid()
  {
    refs := [];
    var rows := ScreenHeight / UnitSize;
    var columns := ScreenWidth / UnitSize;
    assert rows == Rows && columns + 1 == RowLength;
    var i := 0;
    while i <= rows
      invariant 0 <= i <= rows + 1
      invariant |refs| == i * RowLength
      invariant forall k :: 0 <= k < |refs| ==> refs[k] == Cell(k)
    {
      var j := 0;
      while j <= columns
        invariant 0 <= j <= columns + 1
        invariant |refs| == i * RowLength + j
        invariant forall k :: 0 <= k < |refs| ==> refs[k] == Cell(k)
      {
        CellOfRowColumn(i, j);
        refs := refs + [Point(j * UnitSize, i * UnitSize)];
        j := j + 1;
      }
      MulSucc(i, RowLength);
      i := i + 1;
    }
    forall i, j | 0 <= i <= Rows && 0 <= j <= Columns
      ensures refs[i * RowLength + j] == Point(j * UnitSize, i * UnitSize)
    {
      GridAtRowColumn(refs, i, j);
    }
    IsReferenceGrid(refs);
  }

  lemma IsReferenceGrid(refs: seq<Point>)
    requires |refs| == GridSize && forall k :: 0 <= k < |refs| ==> refs[k] == Cell(k)
    ensures refs == ReferenceGrid()
  {
  }

  /** In the grid laid out row by row, row i and column j hold (j * U, i * U). */
  lemma GridAtRowColumn(refs: seq<Point>, i: int, j: int)
    requires |refs| == GridSize && forall k :: 0 <= k < |refs| ==> refs[k] == Cell(k)
    requires 0 <= i <= Rows && 0 <= j <= Columns
    ensures 0 <= i * RowLength + j < |refs|
    ensures refs[i * RowLength + j] == Point(j * UnitSize, i * UnitSize)
  {
    assert RowLength == 26 && GridSize == 36 * 26;
    CellOfRowColumn(i, j);
  }

  lemma CellOfRowColumn(i: int, j: int)
    requires 0 <= j < RowLength
    ensures Cell(i * RowLength + j) == Point(j * UnitSize, i * UnitSize)
  {
    DivModUnique(i * RowLength + j, RowLength, i, j);
  }

  /** Euclidean division is determined by quotient and remainder. */
  lemma DivModUnique(n: int, d: int, q: int, r: int)
    requires 0 < d && 0 <= r < d && n == q * d + r
    ensures n / d == q && n % d == r
  {
    var q', r' := n / d, n % d;
    assert n == q' * d + r';
    if q' < q {
      assert (q - q') * d == r' - r;
      MulAtLeast(q - q', d);
    } else if q < q' {
      assert (q' - q) * d == r - r';
      MulAtLeast(q' - q, d);
    }
  }

  lemma MulAtLeast(a: int, d: int)
    requires 1 <= a && 0 < d
    ensures a * d >= d
  {
  }

  /** The first reference cell containing (px, py), as the spawn loop finds it. */
  function FirstContaining(refs: seq<Point>, px: int, py: int): (r: Option<Point>)
    ensures r.None? <==> forall k :: 0 <= k < |refs| ==> !Contains(refs[k], px, py)
    ensures r.Some? ==> exists k :: 0 <= k < |refs| && refs[k] == r.value && Contains(refs[k], px, py)
                                     && forall j :: 0 <= j < k ==> !Contains(refs[j], px, py)
  {
    if |refs| == 0 then None
    else if Contains(refs[0], px, py) then Some(refs[0])
    else
      var r := FirstContaining(refs[1..], px, py);
      assert forall k :: 1 <= k < |refs| ==> refs[k] == refs[1..][k - 1];
      r
  }

  /** A containing cell sits on the UnitSize lattice point at or below the point. */
  lemma ContainingCellIsSnap(k: int, px: int, py: int)
    requires 0 <= k < GridSize && Contains(Cell(k), px, py)
    ensures Cell(k) == Point(px - px % UnitSize, py - py % UnitSize)
    ensures InGrid(px, py)
  {
    var c, w := k % RowLength, k / RowLength;
    CellIndex(k, c, w);
    AxisSnap(c, px);
    AxisSnap(w, py);
  }

  /** Cell k lies in column k mod RowLength of row k / RowLength, inside the grid. */
  lemma CellIndex(k: int, c: int, w: int)
    requires 0 <= k < GridSize && c == k % RowLength && w == k / RowLength
    ensures 0 <= c < RowLength && 0 <= w <= Rows
    ensures Cell(k) == Point(c * UnitSize, w * UnitSize)
  {
    assert RowLength == 26 && GridSize == 36 * 26;
    assert k == w * 26 + c && 0 <= c < 26;
  }

  /** A coordinate inside the cell that starts at c * UnitSize snaps to it. */
  lemma AxisSnap(c: int, v: int)
    requires c * UnitSize <= v < c * UnitSize + UnitSize
    ensures v - v % UnitSize == c * UnitSize
  {
    DivModUnique(v, UnitSize, c, v - c * UnitSize);
  }

  /** Every point of the grid lies in the cell of its row and column. */
  lemma GridCellOf(px: int, py: int) returns (k: int)
    requires InGrid(px, py)
    ensures 0 <= k < GridSize && Contains(Cell(k), px, py)
  {
    assert UnitSize == 20 && RowLength == 26 && Rows == 35;
    var c, w := px / 20, py / 20;
    assert 0 <= c < 26 && 0 <= w < 36;
    k := w * RowLength + c;
    CellOfRowColumn(w, c);
  }

  /** Spawning snaps exactly the points of the grid to (x - x mod U, y - y mod U),
      and finds no cell for every other point, negative ones included. */
  lemma SnapToGrid(px: int, py: int)
    ensures InGrid(px, py) ==> FirstContaining(ReferenceGrid(), px, py) == Some(Point(px - px % UnitSize, py - py % UnitSize))
    ensures !InGrid(px, py) ==> FirstContaining(ReferenceGrid(), px, py) == None
  {
    var refs := ReferenceGrid();
    var r := FirstContaining(refs, px, py);
    if InGrid(px, py) {
      var k := GridCellOf(px, py);
      assert Contains(refs[k], px, py);
    }
    if r.Some? {
      var k :| 0 <= k < |refs| && refs[k] == r.value && Contains(refs[k], px, py);
      ContainingCellIsSnap(k, px, py);
    }
  }
}

=== FILE: gravity.dfy ===
/** The four gravity directions, the GRAVITY vector table and the keys that
    select a direction. */
module Gravity {
  import opened Geometry

  /** The gravityState characters 'D', 'R', 'U' and 'L'. */
  datatype Direction = Down | Right | Up | Left

  /** Distance a moving square travels in one tick. */
  const Step: int := UnitSize / 4

  /** The GRAVITY table, rows in the order DOWN, RIGHT, UP, LEFT. */
  const GravityTable: seq<Point> := [Point(0, Step), Point(Step, 0), Point(0, -Step), Point(-Step, 0)]

  /** The row of GravityTable that the direction map stores for each direction. */
  function TableRow(d: Direction): nat {
    match d
    case Down => 0
    case Right => 1
    case Up => 2
    case Left => 3
  }

  /** The vector the direction map gives for d: a single axis, a quarter of
      a unit long, pointing the way the direction names. */
  function Vector(d: Direction): (v: Point)
    ensures (v.x == 0) != (v.y == 0)
    ensures Abs(v.x) + Abs(v.y) == UnitSize / 4
    ensures v.x == 0 <==> d == Down || d == Up
    ensures v.x + v.y > 0 <==> d == Down || d == Right
  {
    GravityTable[TableRow(d)]
  }

  /** Distinct directions have distinct vectors, so the table is a faithful
      encoding of the direction. */
  lemma VectorInjective(d: Direction, e: Direction)
    ensures Vector(d) == Vector(e) <==> d == e
  {
  }

  /** java.awt.event.KeyEvent codes of the keys the panel listens to. */
  const KeySpace: int := 0x20
  const KeyA: int := 0x41
  const KeyD: int := 0x44
  const KeyS: int := 0x53
  const KeyT: int := 0x54
  const KeyW: int := 0x57

  /** The direction a key selects: A left, S down, D right, W up. */
  function DirectionOfKey(code: int): (r: Option<Direction>)
    ensures r.Some? <==> code == KeyA || code == KeyS || code == KeyD || code == KeyW
    ensures r == Some(Left) <==> code == KeyA
    ensures r == Some(Down) <==> code == KeyS
    ensures r == Some(Right) <==> code == KeyD
    ensures r == Some(Up) <==> code == KeyW
  {
    if code == KeyA then Some(Left)
    else if code == KeyS then Some(Down)
    else if code == KeyD then Some(Right)
    else if code == KeyW then Some(Up)
    else None
  }
}

=== FILE: panel.dfy ===
/** The simulation state of SandPanel and its operations: spawning a square,
    one tick (move, then collision check), the gravity-change keys and the
    reset key.

    A java.awt.Rectangle is a mutable object, and the panel's lists hold
    references to those objects. The model keeps that identity: `rects` holds
    every Rectangle spawned so far, indexed by creation order, and the two
    lists hold indices into it. A list may hold the same index more than once
    exactly as the Java list may hold the same object more than once. */
module SandPanel {
  import opened Geometry
  import opened Gravity

  datatype Panel = Panel(
    rects: seq<Point>,        // position of every Rectangle created so far
    squares: seq<nat>,        // the moving list
    staticSquares: seq<nat>,  // the static (settled) list
    gravityState: Direction,
    gravityX: int,
    gravityY: int)

  predicate IdsIn(ids: seq<nat>, n: int) {
    forall i :: 0 <= i < |ids| ==> ids[i] < n
  }

  predicate DisjointIds(a: seq<nat>, b: seq<nat>) {
    forall i, j :: 0 <= i < |a| && 0 <= j < |b| ==> a[i] != b[j]
  }

  predicate NoDuplicates(ids: seq<nat>) {
    forall i, j :: 0 <= i < j < |ids| ==> ids[i] != ids[j]
  }

  /** Every listed square exists, and no square is both moving and static. */
  predicate WellFormed(p: Panel) {
    && IdsIn(p.squares, |p.rects|)
    && IdsIn(p.staticSquares, |p.rects|)
    && DisjointIds(p.squares, p.staticSquares)
  }

  /** WellFormed, and gravityX/gravityY hold the vector of gravityState. */
  predicate Valid(p: Panel) {
    WellFormed(p) && Point(p.gravityX, p.gravityY) == Vector(p.gravityState)
  }

  /** The state after construction: no squares, gravity DOWN. */
  function Initial(): (p: Panel)
    ensures Valid(p)
    ensures p.squares == [] && p.staticSquares == [] && p.gravityState == Down
  {
    Panel([], [], [], Down, GravityTable[0].x, GravityTable[0].y)
  }

  /** The positions of the listed squares. */
  function Positions(rects: seq<Point>, ids: seq<nat>): (ps: seq<Point>)
    requires IdsIn(ids, |rects|)
    ensures |ps| == |ids|
    ensures forall i :: 0 <= i < |ids| ==> ps[i] == rects[ids[i]]
  {
    seq(|ids|, i requires 0 <= i < |ids| => rects[ids[i]])
  }

  // ---------------------------------------------------------------------
  // Spawning

  /** generateSquareAccordingToMousePosition: a new square at the first
      reference cell containing the point, with no check for squares
      already there; nothing happens when no cell contains the point. */
  function Spawn(p: Panel, px: int, py: int): (r: Panel)
    ensures InGrid(px, py) ==>
      r == p.(rects := p.rects + [Point(px - px % UnitSize, py - py % UnitSize)],
              squares := p.squares + [|p.rects|])
    ensures !InGrid(px, py) ==> r == p
    ensures Valid(p) ==> Valid(r)
  {
    SnapToGrid(px, py);
    match FirstContaining(ReferenceGrid(), px, py)
    case None => p
    case Some(cell) => p.(rects := p.rects + [cell], squares := p.squares + [|p.rects|])
  }

  // ---------------------------------------------------------------------
  // Moving

  /** The forEach of moveCurrentSquares: each list entry translates the
      object it refers to, so an object listed c times moves c times. */
  function MoveEach(rects: seq<Point>, ids: seq<nat>, dx: int, dy: int): (r: seq<Point>)
    requires IdsIn(ids, |rects|)
    ensures |r| == |rects|
    ensures forall k :: 0 <= k < |rects| ==> r[k] == Advance(rects[k], multiset(ids)[k], dx, dy)
    decreases |ids|
  {
    if |ids| == 0 then rects
    else
      var id := ids[0];
      var r := MoveEach(rects[id := Translate(rects[id], dx, dy)], ids[1..], dx, dy);
      assert ids == [id] + ids[1..];
      assert forall k :: 0 <= k < |rects| ==>
        multiset(ids)[k] == multiset(ids[1..])[k] + (if k == id then 1 else 0);
      AdvanceOnceMore(rects[id], multiset(ids[1..])[id], dx, dy);
      r
  }

  /** A Rectangle listed once moves once. */
  lemma MovedOnce(rects: seq<Point>, ids: seq<nat>, dx: int, dy: int, k: nat)
    requires IdsIn(ids, |rects|) && k < |rects| && multiset(ids)[k] == 1
    ensures MoveEach(rects, ids, dx, dy)[k] == Translate(rects[k], dx, dy)
  {
  }

  /** A Rectangle listed twice moves twice. */
  lemma MovedTwice(rects: seq<Point>, ids: seq<nat>, dx: int, dy: int, k: nat)
    requires IdsIn(ids, |rects|) && k < |rects| && multiset(ids)[k] == 2
    ensures MoveEach(rects, ids, dx, dy)[k] == Translate(Translate(rects[k], dx, dy), dx, dy)
  {
  }

  lemma OccursOnce(ids: seq<nat>, i: int)
    requires NoDuplicates(ids) && 0 <= i < |ids|
    ensures multiset(ids)[ids[i]] == 1
  {
    if i == 0 {
      assert ids == [ids[0]] + ids[1..];
      assert ids[0] !in ids[1..];
    } else {
      assert ids == [ids[0]] + ids[1..];
      assert ids[1..][i - 1] == ids[i];
      OccursOnce(ids[1..], i - 1);
    }
  }

  /** moveCurrentSquares: every square of the moving list is translated by
      the gravity vector; nothing else changes. */
  function MoveCurrentSquares(p: Panel): (r: Panel)
    requires IdsIn(p.squares, |p.rects|)
    ensures r.squares == p.squares && r.staticSquares == p.staticSquares
    ensures r.gravityState == p.gravityState && r.gravityX == p.gravityX && r.gravityY == p.gravityY
    ensures |r.rects| == |p.rects|
    ensures forall k :: 0 <= k < |p.rects| && k !in p.squares ==> r.rects[k] == p.rects[k]
    ensures forall k :: 0 <= k < |p.rects| ==>
      r.rects[k] == Advance(p.rects[k], multiset(p.squares)[k], p.gravityX, p.gravityY)
    ensures NoDuplicates(p.squares) ==> forall i :: 0 <= i < |p.squares| ==>
      r.rects[p.squares[i]] == Translate(p.rects[p.squares[i]], p.gravityX, p.gravityY)
  {
    var rects := MoveEach(p.rects, p.squares, p.gravityX, p.gravityY);
    assert NoDuplicates(p.squares) ==> forall i :: 0 <= i < |p.squares| ==>
      rects[p.squares[i]] == Translate(p.rects[p.squares[i]], p.gravityX, p.gravityY) by {
      if NoDuplicates(p.squares) {
        forall i | 0 <= i < |p.squares|
          ensures rects[p.squares[i]] == Translate(p.rects[p.squares[i]], p.gravityX, p.gravityY)
        {
          OccursOnce(p.squares, i);
        }
      }
    }
    p.(rects := rects)
  }

  // ---------------------------------------------------------------------
  // Collision check

  /** The boundary test of checkCollisions for the active direction. */
  predicate AtBoundary(q: Point, d: Direction) {
    match d
    case Down => q.y >= ScreenHeight - UnitSize
    case Right => q.x >= ScreenWidth - UnitSize
    case Up => q.y <= 0
    case Left => q.x <= 0
  }

  /** One step back against the gravity vector. */
  function StepBack(q: Point, dx: int, dy: int): Point {
    Translate(q, dx * -1, dy * -1)
  }

  /** The square at q stepped back n times. */
  function StepBackTimes(q: Point, n: nat, dx: int, dy: int): Point {
    Advance(q, n, -dx, -dy)
  }

  lemma StepBackOnceMore(q: Point, n: nat, dx: int, dy: int)
    ensures StepBackTimes(StepBack(q, dx, dy), n, dx, dy) == StepBackTimes(q, n + 1, dx, dy)
    ensures StepBackTimes(q, 0, dx, dy) == q
  {
    AdvanceOnceMore(q, n, -dx, -dy);
  }

  /** The inner loop over the static list: each static square the current
      position intersects steps the square back once more. Returns the final
      position and the number of hits. */
  function SettleAgainst(q: Point, others: seq<Point>, dx: int, dy: int): (res: (Point, nat))
    ensures res.1 > 0 <==> exists j :: 0 <= j < |others| && Intersects(q, others[j])
    ensures res.1 <= |others|
    ensures res.0 == StepBackTimes(q, res.1, dx, dy)
    decreases |others|
  {
    if |others| == 0 then (q, 0)
    else
      assert forall j :: 1 <= j < |others| ==> others[1..][j - 1] == others[j];
      if Intersects(q, others[0]) then
        var res := SettleAgainst(StepBack(q, dx, dy), others[1..], dx, dy);
        StepBackOnceMore(q, res.1, dx, dy);
        (res.0, res.1 + 1)
      else
        var res := SettleAgainst(q, others[1..], dx, dy);
        res
  }

  /** The inner loop read left to right: one more static square is tested
      at the position the earlier hits left the square at, and steps it back
      once more exactly when it overlaps there. */
  lemma {:induction false} SettleAgainstSnoc(q: Point, others: seq<Point>, o: Point, dx: int, dy: int)
    ensures var pre := SettleAgainst(q, others, dx, dy);
            SettleAgainst(q, others + [o], dx, dy)
              == if Intersects(pre.0, o) then (StepBack(pre.0, dx, dy), pre.1 + 1) else pre
    decreases |others|
  {
    var all := others + [o];
    if |others| == 0 {
      assert all == [o] && all[1..] == [];
    } else {
      assert all[0] == others[0] && all[1..] == others[1..] + [o];
      if Intersects(q, others[0]) {
        SettleAgainstSnoc(StepBack(q, dx, dy), others[1..], o, dx, dy);
      } else {
        SettleAgainstSnoc(q, others[1..], o, dx, dy);
      }
    }
  }

  /** The body of the checkCollisions loop for one square at q: the boundary
      test and then the static list, each hit stepping the square back once.
      Returns where the square ends and how often it was added to the lists
      of squares to remove and to add. */
  function Resolve(q: Point, d: Direction, dx: int, dy: int, others: seq<Point>): (res: (Point, nat))
    ensures res.1 > 0 <==> AtBoundary(q, d) || exists j :: 0 <= j < |others| && Intersects(q, others[j])
    ensures res.1 <= |others| + 1
    ensures res.0 == StepBackTimes(q, res.1, dx, dy)
    ensures AtBoundary(q, d) ==> res.1 == 1 + SettleAgainst(StepBack(q, dx, dy), others, dx, dy).1
    ensures !AtBoundary(q, d) ==> res == SettleAgainst(q, others, dx, dy)
  {
    if AtBoundary(q, d) then
      var res := SettleAgainst(StepBack(q, dx, dy), others, dx, dy);
      StepBackOnceMore(q, res.1, dx, dy);
      (res.0, res.1 + 1)
    else
      SettleAgainst(q, others, dx, dy)
  }

  function Repeat(id: nat, n: nat): (s: seq<nat>)
    ensures |s| == n && forall i :: 0 <= i < n ==> s[i] == id
  {
    seq(n, _ => id)
  }

  lemma RepeatCount(id: nat, n: nat, k: nat)
    ensures multiset(Repeat(id, n))[k] == if k == id then n else 0
  {
    if n > 0 {
      assert Repeat(id, n) == Repeat(id, n - 1) + [id];
      RepeatCount(id, n - 1, k);
    }
  }

  /** The outer loop of checkCollisions over the moving list. A square is
      read from the arena, so an object listed twice sees the position its
      first occurrence left it at; the static squares never move during the
      loop. Returns the arena and the list of squares to add (equal to the
      list of squares to remove), one entry per hit. */
  function ResolveAll(rects: seq<Point>, ids: seq<nat>, statics: seq<nat>, d: Direction, dx: int, dy: int)
    : (res: (seq<Point>, seq<nat>))
    requires IdsIn(ids, |rects|) && IdsIn(statics, |rects|) && DisjointIds(ids, statics)
    ensures |res.0| == |rects|
    ensures forall k :: 0 <= k < |rects| && k !in ids ==> res.0[k] == rects[k]
    ensures forall j :: 0 <= j < |res.1| ==> res.1[j] in ids
    decreases |ids|
  {
    if |ids| == 0 then (rects, [])
    else
      var id := ids[0];
      var hit := Resolve(rects[id], d, dx, dy, Positions(rects, statics));
      var rest := ResolveAll(rects[id := hit.0], ids[1..], statics, d, dx, dy);
      assert forall k :: k in ids[1..] ==> k in ids;
      (rest.0, Repeat(id, hit.1) + rest.1)
  }

  /** In a moving list without repeats, each square ends where its own
      Resolve puts it, against the static positions of the start of the
      check, and is listed for settling once per hit. */
  lemma {:induction false} ResolveAllPerSquare(rects: seq<Point>, ids: seq<nat>, statics: seq<nat>,
                                               d: Direction, dx: int, dy: int, i: int)
    requires IdsIn(ids, |rects|) && IdsIn(statics, |rects|) && DisjointIds(ids, statics)
    requires NoDuplicates(ids) && 0 <= i < |ids|
    ensures var res := ResolveAll(rects, ids, statics, d, dx, dy);
            var hit := Resolve(rects[ids[i]], d, dx, dy, Positions(rects, statics));
            res.0[ids[i]] == hit.0 && multiset(res.1)[ids[i]] == hit.1
    decreases |ids|
  {
    var res := ResolveAll(rects, ids, statics, d, dx, dy);
    var id := ids[0];
    var hit := Resolve(rects[id], d, dx, dy, Positions(rects, statics));
    var rects1 := rects[id := hit.0];
    PositionsSkip(rects, statics, id, hit.0);
    var rest := ResolveAll(rects1, ids[1..], statics, d, dx, dy);
    assert res.1 == Repeat(id, hit.1) + rest.1;
    RepeatCount(id, hit.1, ids[i]);
    if i == 0 {
      assert id !in ids[1..];
      assert id !in rest.1;
    } else {
      assert ids[1..][i - 1] == ids[i];
      assert NoDuplicates(ids[1..]);
      ResolveAllPerSquare(rects1, ids[1..], statics, d, dx, dy, i - 1);
    }
  }

  /** Moving a square that is not listed leaves the listed positions alone. */
  lemma PositionsSkip(rects: seq<Point>, ids: seq<nat>, id: nat, q: Point)
    requires IdsIn(ids, |rects|) && id < |rects| && id !in ids
    ensures Positions(rects[id := q], ids) == Positions(rects, ids)
  {
  }

  /** The boundary test names the screen edge the gravity vector points at:
      the square triggers once its leading edge has reached that edge. */
  lemma AtBoundaryAhead(q: Point, d: Direction)
    ensures var v := Vector(d);
            AtBoundary(q, d) <==>
              (v.y > 0 && q.y >= ScreenHeight - UnitSize) || (v.x > 0 && q.x >= ScreenWidth - UnitSize)
              || (v.y < 0 && q.y <= 0) || (v.x < 0 && q.x <= 0)
  {
  }

  /** The squares of the list whose position equals some listed position. */
  predicate EqualsSome(rects: seq<Point>, m: nat, toRemove: seq<nat>)
    requires m < |rects| && IdsIn(toRemove, |rects|)
  {
    exists j :: 0 <= j < |toRemove| && rects[toRemove[j]] == rects[m]
  }

  /** a is b with some entries left out, the rest kept in their order. */
  predicate SubsequenceOf(a: seq<nat>, b: seq<nat>)
    decreases |b|
  {
    if |a| == 0 then true
    else if |b| == 0 then false
    else (a[0] == b[0] && SubsequenceOf(a[1..], b[1..])) || SubsequenceOf(a, b[1..])
  }

  /** ArrayList.removeAll: drops every entry equal, by Rectangle value
      equality (position), to some entry of toRemove. */
  function RemoveAll(rects: seq<Point>, list: seq<nat>, toRemove: seq<nat>): (r: seq<nat>)
    requires IdsIn(list, |rects|) && IdsIn(toRemove, |rects|)
    ensures multiset(r) <= multiset(list)
    ensures forall i :: 0 <= i < |list| ==>
      multiset(r)[list[i]] == if EqualsSome(rects, list[i], toRemove) then 0 else multiset(list)[list[i]]
    ensures SubsequenceOf(r, list)
    decreases |list|
  {
    if |list| == 0 then []
    else
      var rest := RemoveAll(rects, list[1..], toRemove);
      assert list == [list[0]] + list[1..];
      assert forall i :: 1 <= i < |list| ==> list[1..][i - 1] == list[i];
      if EqualsSome(rects, list[0], toRemove) then rest else [list[0]] + rest
  }

  lemma SubMultisetIdsIn(a: seq<nat>, b: seq<nat>, n: int)
    requires multiset(a) <= multiset(b) && IdsIn(b, n)
    ensures IdsIn(a, n)
    ensures forall i :: 0 <= i < |a| ==> a[i] in b
  {
    forall i | 0 <= i < |a| ensures a[i] in b && a[i] < n {
      assert a[i] in multiset(a);
    }
  }

  /** checkCollisions: the moving squares are resolved in list order, the
      removal drops, by value, every moving square at a position where some
      hit square ended, and the hit squares are appended to the static list.
      The static squares of the start of the check neither move nor leave,
      and only moving squares join them. */
  function CheckCollisions(p: Panel): (r: Panel)
    requires WellFormed(p)
    ensures WellFormed(r)
    ensures r.gravityState == p.gravityState && r.gravityX == p.gravityX && r.gravityY == p.gravityY
    ensures |r.rects| == |p.rects|
    ensures forall k :: 0 <= k < |p.rects| && k !in p.squares ==> r.rects[k] == p.rects[k]
    ensures |p.staticSquares| <= |r.staticSquares|
    ensures r.staticSquares[..|p.staticSquares|] == p.staticSquares
    ensures forall j :: |p.staticSquares| <= j < |r.staticSquares| ==> r.staticSquares[j] in p.squares
    ensures multiset(r.squares) <= multiset(p.squares)
    ensures SubsequenceOf(r.squares, p.squares)
  {
    var res := ResolveAll(p.rects, p.squares, p.staticSquares, p.gravityState, p.gravityX, p.gravityY);
    var squares := RemoveAll(res.0, p.squares, res.1);
    SubMultisetIdsIn(squares, p.squares, |res.0|);
    SettledLeaveMoving(res.0, p.squares, p.staticSquares, res.1);
    p.(rects := res.0, squares := squares, staticSquares := p.staticSquares + res.1)
  }

  /** After the removal, nothing in the moving list is in the new static list. */
  lemma SettledLeaveMoving(rects: seq<Point>, squares: seq<nat>, statics: seq<nat>, settled: seq<nat>)
    requires IdsIn(squares, |rects|) && IdsIn(statics, |rects|) && DisjointIds(squares, statics)
    requires forall j :: 0 <= j < |settled| ==> settled[j] in squares
    ensures DisjointIds(RemoveAll(rects, squares, settled), statics + settled)
  {
    var rest := RemoveAll(rects, squares, settled);
    var all := statics + settled;
    forall i, j | 0 <= i < |rest| && 0 <= j < |all|
      ensures rest[i] != all[j]
    {
      assert rest[i] in multiset(rest);
      assert rest[i] in squares;
      if j >= |statics| {
        var s := all[j];
        assert s == settled[j - |statics|];
        assert EqualsSome(rects, s, settled);
        var m :| 0 <= m < |squares| && squares[m] == s;
        assert multiset(rest)[s] == 0;
      }
    }
  }

  /** For a moving list without repeats: each moving square ends where
      Resolve puts it, is appended to the static list once per hit, and stays
      in the moving list exactly when no square settled by this check ended
      at its position (a hit square always ends at its own position, so it
      always leaves). */
  lemma CheckCollisionsPerSquare(p: Panel, i: int)
    requires WellFormed(p) && NoDuplicates(p.squares) && 0 <= i < |p.squares|
    ensures var r := CheckCollisions(p);
            var id := p.squares[i];
            var hit := Resolve(p.rects[id], p.gravityState, p.gravityX, p.gravityY, Positions(p.rects, p.staticSquares));
            && r.rects[id] == hit.0
            && multiset(r.staticSquares)[id] == hit.1
            && (id in r.squares <==> !EqualsSome(r.rects, id, r.staticSquares[|p.staticSquares|..]))
            && (hit.1 > 0 ==> id !in r.squares)
  {
    var r := CheckCollisions(p);
    var id := p.squares[i];
    var res := ResolveAll(p.rects, p.squares, p.staticSquares, p.gravityState, p.gravityX, p.gravityY);
    ResolveAllPerSquare(p.rects, p.squares, p.staticSquares, p.gravityState, p.gravityX, p.gravityY, i);
    assert r.staticSquares[|p.staticSquares|..] == res.1;
    assert id !in p.staticSquares;
    assert multiset(r.staticSquares) == multiset(p.staticSquares) + multiset(res.1);
    RemovedOnceListed(res.0, p.squares, res.1, i);
  }

  /** In a list without repeats, removeAll keeps an entry exactly when no
      entry of toRemove has its position, so an entry listed in toRemove
      always goes. */
  lemma RemovedOnceListed(rects: seq<Point>, list: seq<nat>, toRemove: seq<nat>, i: int)
    requires IdsIn(list, |rects|) && IdsIn(toRemove, |rects|) && NoDuplicates(list) && 0 <= i < |list|
    ensures list[i] in RemoveAll(rects, list, toRemove) <==> !EqualsSome(rects, list[i], toRemove)
    ensures list[i] in toRemove ==> list[i] !in RemoveAll(rects, list, toRemove)
  {
    var id := list[i];
    var r := RemoveAll(rects, list, toRemove);
    OccursOnce(list, i);
    assert id in r <==> id in multiset(r);
    if id in toRemove {
      var j :| 0 <= j < |toRemove| && toRemove[j] == id;
      assert EqualsSome(rects, id, toRemove);
    }
  }

  /** One tick of the run loop: moveCurrentSquares, then checkCollisions.
      The static squares of the start of the tick stay in place and in the
      static list; only moving squares join them. */
  function Tick(p: Panel): (r: Panel)
    requires WellFormed(p)
    ensures WellFormed(r)
    ensures r.gravityState == p.gravityState && r.gravityX == p.gravityX && r.gravityY == p.gravityY
    ensures |r.rects| == |p.rects|
    ensures forall k :: 0 <= k < |p.rects| && k !in p.squares ==> r.rects[k] == p.rects[k]
    ensures |p.staticSquares| <= |r.staticSquares|
    ensures r.staticSquares[..|p.staticSquares|] == p.staticSquares
    ensures forall j :: 0 <= j < |p.staticSquares| ==> r.rects[p.staticSquares[j]] == p.rects[p.staticSquares[j]]
    ensures forall j :: |p.staticSquares| <= j < |r.staticSquares| ==> r.staticSquares[j] in p.squares
    ensures multiset(r.squares) <= multiset(p.squares)
    ensures SubsequenceOf(r.squares, p.squares)
  {
    var m := MoveCurrentSquares(p);
    assert forall j :: 0 <= j < |p.staticSquares| ==> p.staticSquares[j] !in p.squares;
    CheckCollisions(m)
  }

  /** For a moving list without repeats, one tick moves each square by the
      gravity vector and then resolves it against the boundary and the
      static squares as they stood before the tick. */
  lemma TickPerSquare(p: Panel, i: int)
    requires WellFormed(p) && NoDuplicates(p.squares) && 0 <= i < |p.squares|
    ensures var r := Tick(p);
            var id := p.squares[i];
            var moved := Translate(p.rects[id], p.gravityX, p.gravityY);
            var hit := Resolve(moved, p.gravityState, p.gravityX, p.gravityY, Positions(p.rects, p.staticSquares));
            && r.rects[id] == hit.0
            && multiset(r.staticSquares)[id] == hit.1
            && (id in r.squares <==> !EqualsSome(r.rects, id, r.staticSquares[|p.staticSquares|..]))
            && (hit.1 > 0 ==> id !in r.squares)
  {
    var m := MoveCurrentSquares(p);
    assert forall j :: 0 <= j < |p.staticSquares| ==> p.staticSquares[j] !in p.squares;
    assert Positions(m.rects, m.staticSquares) == Positions(p.rects, p.staticSquares);
    CheckCollisionsPerSquare(m, i);
  }

  // ---------------------------------------------------------------------
  // Keys

  /** The gravity-change branch of keyPressed: set the direction and its
      vector, and release every static square to the moving list, also when
      the direction does not change. */
  function ChangeGravity(p: Panel, d: Direction): (r: Panel)
    ensures r.gravityState == d && Point(r.gravityX, r.gravityY) == Vector(d)
    ensures r.squares == p.squares + p.staticSquares && r.staticSquares == []
    ensures r.rects == p.rects
    ensures WellFormed(p) ==> Valid(r)
  {
    p.(gravityState := d, gravityX := GravityTable[TableRow(d)].x, gravityY := GravityTable[TableRow(d)].y,
       squares := p.squares + p.staticSquares, staticSquares := [])
  }

  /** cleanReset: a fresh empty static list; the moving squares and the
      gravity are untouched. */
  function CleanReset(p: Panel): (r: Panel)
    ensures r.staticSquares == []
    ensures r.squares == p.squares && r.rects == p.rects
    ensures r.gravityState == p.gravityState && r.gravityX == p.gravityX && r.gravityY == p.gravityY
    ensures Valid(p) ==> Valid(r)
  {
    p.(staticSquares := [])
  }

  /** keyPressed as far as it touches the simulation state. The space bar
      only starts or stops the spawn timer, which is outside the state. */
  function KeyPressed(p: Panel, code: int): (r: Panel)
    ensures code == KeyT ==> r == CleanReset(p)
    ensures forall d :: DirectionOfKey(code) == Some(d) ==> r == ChangeGravity(p, d)
    ensures code != KeyT && DirectionOfKey(code).None? ==> r == p
    ensures Valid(p) ==> Valid(r)
  {
    if code == KeySpace then p
    else if code == KeyT then CleanReset(p)
    else
      match DirectionOfKey(code)
      case Some(d) => ChangeGravity(p, d)
      case None => p
  }
}

=== FILE: scenarios.dfy ===
/** Concrete runs of the panel: a square falling to the floor, a second one
    stacking on it, the pile sliding after a gravity change, and the two
    consequences of how checkCollisions fills and empties its lists. */
module Scenarios {
  import opened Geometry
  import opened Gravity
  import opened SandPanel
  import opened Simulation

  /** The floor a square falling from above comes to rest on under DOWN:
      one step above the floor line below. */
  const Floor: int := ScreenHeight - UnitSize - Step

  /** The floor line: a square at or below it triggers the DOWN boundary
      test. Grid row 34 starts on it. */
  const FloorLine: int := ScreenHeight - UnitSize

  /** A snapped row lies a whole number of steps above the last row. */
  lemma StepsToFloorLine(py: int, y0: int, n: int)
    requires y0 == py - py % UnitSize && y0 < ScreenHeight - UnitSize
    requires n == (ScreenHeight - UnitSize - y0) / Step
    ensures n >= 1 && y0 + n * Step == Floor + Step
  {
    var c := py / UnitSize;
    assert y0 == UnitSize * c;
    DivModUnique(ScreenHeight - UnitSize - y0, Step, 136 - 4 * c, 0);
  }

  lemma NoneKept(s: seq<nat>, from: seq<nat>)
    requires multiset(s) <= multiset(from)
    requires forall j :: 0 <= j < |from| ==> from[j] !in s
    ensures s == []
  {
    forall x ensures multiset(s)[x] == 0 {
      if x in multiset(from) {
        var j :| 0 <= j < |from| && from[j] == x;
      }
    }
    assert multiset(s) == multiset{};
  }

  /** k < m steps fall at least one step short of m steps. */
  lemma StepsBelow(k: int, m: int)
    requires k < m
    ensures k * Step + Step <= m * Step
  {
  }

  /** The panel right after one square was spawned at (x0, y0) into an
      empty panel with gravity DOWN. */
  function Dropped(x0: int, y0: int): Panel {
    Panel([Point(x0, y0)], [0], [], Down, 0, Step)
  }

  /** n steps above the last row, the square falls freely for every t < n ticks. */
  lemma DropFalls(x0: int, y0: int, n: nat, t: nat)
    requires y0 + n * Step == Floor + Step && t < n
    ensures Ticks(Dropped(x0, y0), t) == Dropped(x0, y0 + t * Step)
  {
    var p := Dropped(x0, y0);
    var q := p.rects[0];
    forall k | 1 <= k <= t
      ensures Free(p, Advance(q, k, p.gravityX, p.gravityY))
    {
      AdvanceClosed(q, k, p.gravityX, p.gravityY);
      StepsBelow(k, n);
    }
    FreeFall(p, 0, t);
    AdvanceClosed(q, t, p.gravityX, p.gravityY);
    assert Advance(q, t, p.gravityX, p.gravityY) == Point(x0, y0 + t * Step);
    assert p.rects[0 := Advance(q, t, p.gravityX, p.gravityY)] == [Point(x0, y0 + t * Step)];
  }

  /** n steps above the last row, the square reaches the last row on tick n and
      is stepped back onto the floor as the only static square. */
  lemma DropLands(x0: int, y0: int, n: nat)
    requires y0 + n * Step == Floor + Step && n >= 1
    ensures Ticks(Dropped(x0, y0), n) == Resting(x0)
  {
    var p := Dropped(x0, y0);
    var q := p.rects[0];
    forall k | 1 <= k < n
      ensures Free(p, Advance(q, k, p.gravityX, p.gravityY))
    {
      AdvanceClosed(q, k, p.gravityX, p.gravityY);
      StepsBelow(k, n);
    }
    var hit := Hit(p, 0, n);
    AdvanceClosed(q, n, p.gravityX, p.gravityY);
    assert Advance(q, n, p.gravityX, p.gravityY) == Point(x0, ScreenHeight - UnitSize);
    assert hit.1 == 1;
    assert hit.0 == Point(x0, Floor);
    assert p.rects[0 := hit.0] == [Point(x0, Floor)];
    assert Repeat(0, hit.1) == [0];
    assert p.staticSquares + Repeat(0, hit.1) == [0];
    assert p.(rects := [Point(x0, Floor)], squares := [], staticSquares := [0]) == Resting(x0);
    FallThenRest(p, 0, n);
  }

  /** Spawning into the empty panel puts one square at the snapped cell. */
  lemma SpawnIntoEmpty(px: int, py: int, x0: int, y0: int)
    requires InGrid(px, py) && x0 == px - px % UnitSize && y0 == py - py % UnitSize
    ensures Spawn(Initial(), px, py) == Dropped(x0, y0)
  {
  }

  /** With gravity DOWN and no static squares, a square spawned on a row
      above the last one falls one step per tick and, after
      (H - U - y0) / (U / 4) ticks, rests at y = H - U - U/4 in its column. */
  lemma SpawnedSquareRestsOnFloor(px: int, py: int, x0: int, y0: int, n: int)
    requires InGrid(px, py) && x0 == px - px % UnitSize && y0 == py - py % UnitSize
    requires y0 < ScreenHeight - UnitSize && n == (ScreenHeight - UnitSize - y0) / Step
    ensures Spawn(Initial(), px, py) == Dropped(x0, y0)
    ensures n >= 1
    ensures forall t: nat :: t < n ==> Ticks(Dropped(x0, y0), t) == Dropped(x0, y0 + t * Step)
    ensures Ticks(Dropped(x0, y0), n) == Resting(x0)
  {
    SpawnIntoEmpty(px, py, x0, y0);
    StepsToFloorLine(py, y0, n);
    forall t: nat | t < n
      ensures Ticks(Dropped(x0, y0), t) == Dropped(x0, y0 + t * Step)
    {
      DropFalls(x0, y0, n, t);
    }
    DropLands(x0, y0, n);
  }

  /** A square resting on the floor, as the only square. */
  function Resting(x0: int): Panel {
    Panel([Point(x0, Floor)], [], [0], Down, 0, Step)
  }

  /** A square resting on the floor and a second one spawned at (x0, y1). */
  function Stacking(x0: int, y1: int): Panel {
    Panel([Point(x0, Floor), Point(x0, y1)], [1], [0], Down, 0, Step)
  }

  /** The lowest free position above a resting square is UnitSize higher. */
  const OnTop: int := Floor - UnitSize

  lemma StepsToOnTop(py: int, y1: int, m: int)
    requires y1 == py - py % UnitSize && y1 < OnTop
    requires m == (OnTop + Step - y1) / Step
    ensures m >= 1 && y1 + m * Step == OnTop + Step
  {
    var c := py / UnitSize;
    assert y1 == UnitSize * c;
    DivModUnique(OnTop + Step - y1, Step, 132 - 4 * c, 0);
  }

  /** Every position in the column strictly above the resting square is free. */
  lemma FreeAboveRest(x0: int, y1: int, y: int)
    requires y <= OnTop
    ensures WellFormed(Stacking(x0, y1))
    ensures Free(Stacking(x0, y1), Point(x0, y))
  {
    var p := Stacking(x0, y1);
    assert p.rects[p.staticSquares[0]] == Point(x0, Floor);
  }

  /** Every step the second square takes short of m stays clear of the
      resting square. */
  lemma StackFalls(x0: int, y1: int, m: nat)
    requires y1 + m * Step == OnTop + Step
    ensures WellFormed(Stacking(x0, y1))
    ensures forall k :: 1 <= k < m ==> Free(Stacking(x0, y1), Advance(Point(x0, y1), k, 0, Step))
  {
    var p := Stacking(x0, y1);
    forall k | 1 <= k < m
      ensures Free(p, Advance(Point(x0, y1), k, 0, Step))
    {
      AdvanceClosed(Point(x0, y1), k, 0, Step);
      StepsBelow(k, m);
      FreeAboveRest(x0, y1, y1 + k * Step);
    }
  }

  /** Step m overlaps the resting square once and is stepped back on top of it. */
  lemma StackHit(x0: int, y1: int, m: nat)
    requires y1 + m * Step == OnTop + Step
    ensures WellFormed(Stacking(x0, y1))
    ensures Hit(Stacking(x0, y1), 1, m) == (Point(x0, OnTop), 1)
  {
    var p := Stacking(x0, y1);
    var landing := Point(x0, OnTop + Step);
    assert Positions(p.rects, p.staticSquares) == [Point(x0, Floor)];
    AdvanceClosed(Point(x0, y1), m, 0, Step);
    assert Advance(p.rects[1], m, p.gravityX, p.gravityY) == landing;
    assert [Point(x0, Floor)][1..] == [];
    assert SettleAgainst(Point(x0, OnTop), [], 0, Step) == (Point(x0, OnTop), 0);
  }

  /** m steps above the first position that overlaps the resting square,
      the second square falls and, on tick m, is stepped back to rest
      directly on top of it. */
  lemma StackLands(x0: int, y1: int, m: nat)
    requires y1 + m * Step == OnTop + Step && m >= 1
    ensures Ticks(Stacking(x0, y1), m) == Panel([Point(x0, Floor), Point(x0, OnTop)], [], [0, 1], Down, 0, Step)
  {
    var p := Stacking(x0, y1);
    assert p.rects[1 := Point(x0, OnTop)] == [Point(x0, Floor), Point(x0, OnTop)];
    assert p.staticSquares + Repeat(1, 1) == [0, 1];
    StackFalls(x0, y1, m);
    StackHit(x0, y1, m);
    FallThenRest(p, 1, m);
  }

  /** Spawning next to a resting square adds the new square as the only
      moving one. */
  lemma SpawnBesideRest(px: int, py: int, x0: int, y1: int)
    requires InGrid(px, py) && x0 == px - px % UnitSize && y1 == py - py % UnitSize
    ensures Spawn(Resting(x0), px, py) == Stacking(x0, y1)
  {
  }

  /** A second square spawned into the column of a square resting on the
      floor comes to rest touching it from above. */
  lemma SecondSquareStacks(px: int, py: int, x0: int, y1: int, m: int)
    requires InGrid(px, py) && x0 == px - px % UnitSize && y1 == py - py % UnitSize
    requires y1 < OnTop && m == (OnTop + Step - y1) / Step
    ensures Spawn(Resting(x0), px, py) == Stacking(x0, y1)
    ensures m >= 1
    ensures Ticks(Stacking(x0, y1), m) == Panel([Point(x0, Floor), Point(x0, OnTop)], [], [0, 1], Down, 0, Step)
  {
    SpawnBesideRest(px, py, x0, y1);
    StepsToOnTop(py, y1, m);
    StackLands(x0, y1, m);
  }

  /** A second square spawned in grid row 33, one step above the first
      position that overlaps the resting square, overlaps it after its first
      move, is stepped back once and rests at y = 660, still overlapping
      the resting square by one step. */
  lemma Row33SquareRestsOverlapping(x0: int)
    ensures Tick(Stacking(x0, OnTop + Step)) ==
            Panel([Point(x0, Floor), Point(x0, OnTop + Step)], [], [0, 1], Down, 0, Step)
  {
    var p := Stacking(x0, OnTop + Step);
    FreeAboveRest(x0, OnTop + Step, OnTop);
    assert Positions(p.rects, p.staticSquares) == [Point(x0, Floor)];
    assert Advance(p.rects[1], 1, 0, Step) == Point(x0, OnTop + 2 * Step);
    assert [Point(x0, Floor)][1..] == [];
    assert SettleAgainst(Point(x0, OnTop + Step), [], 0, Step) == (Point(x0, OnTop + Step), 0);
    var hit := Hit(p, 1, 1);
    assert hit == (Point(x0, OnTop + Step), 1);
    assert Repeat(1, hit.1) == [1];
    assert p.rects[1 := hit.0] == p.rects;
    SingleSquareTick(p, 1);
  }

  /** A second square spawned in grid row 34, on the floor line, triggers
      the boundary and then the resting square on its first tick, is
      stepped back twice onto the resting square's own position, and is
      appended to the static list twice. */
  lemma Row34SquareRestsOnFirst(x0: int)
    ensures Tick(Stacking(x0, FloorLine)) ==
            Panel([Point(x0, Floor), Point(x0, Floor)], [], [0, 1, 1], Down, 0, Step)
  {
    var p := Stacking(x0, FloorLine);
    FreeAboveRest(x0, FloorLine, OnTop);
    assert Positions(p.rects, p.staticSquares) == [Point(x0, Floor)];
    assert Advance(p.rects[1], 1, 0, Step) == Point(x0, FloorLine + Step);
    assert [Point(x0, Floor)][1..] == [];
    assert AtBoundary(Point(x0, FloorLine + Step), Down);
    assert SettleAgainst(Point(x0, Floor), [], 0, Step) == (Point(x0, Floor), 0);
    assert SettleAgainst(Point(x0, FloorLine), [Point(x0, Floor)], 0, Step) == (Point(x0, Floor), 1);
    var hit := Hit(p, 1, 1);
    assert hit == (Point(x0, Floor), 2);
    assert Repeat(1, hit.1) == [1, 1];
    assert p.rects[1 := hit.0] == [Point(x0, Floor), Point(x0, Floor)];
    SingleSquareTick(p, 1);
  }

  /** The resting square after a gravity change to RIGHT. */
  function Sliding(x0: int): Panel {
    Panel([Point(x0, Floor)], [0], [], Right, Step, 0)
  }

  /** The right wall stops a square one step short of its last column. */
  const RightRest: int := ScreenWidth - UnitSize - Step

  lemma SlideLands(x0: int, n: nat)
    requires x0 + n * Step == RightRest + Step && n >= 1
    ensures Ticks(Sliding(x0), n) == Panel([Point(RightRest, Floor)], [], [0], Right, Step, 0)
  {
    var p := Sliding(x0);
    var q := p.rects[0];
    forall k | 1 <= k < n
      ensures Free(p, Advance(q, k, p.gravityX, p.gravityY))
    {
      AdvanceClosed(q, k, p.gravityX, p.gravityY);
      StepsBelow(k, n);
    }
    var hit := Hit(p, 0, n);
    AdvanceClosed(q, n, p.gravityX, p.gravityY);
    assert Advance(q, n, p.gravityX, p.gravityY) == Point(ScreenWidth - UnitSize, Floor);
    assert hit.1 == 1;
    assert hit.0 == Point(RightRest, Floor);
    assert p.rects[0 := hit.0] == [Point(RightRest, Floor)];
    assert Repeat(0, hit.1) == [0];
    assert p.staticSquares + Repeat(0, hit.1) == [0];
    assert p.(rects := [Point(RightRest, Floor)], squares := [], staticSquares := [0])
        == Panel([Point(RightRest, Floor)], [], [0], Right, Step, 0);
    FallThenRest(p, 0, n);
  }

  lemma StepsToRightWall(x0: int, n: int)
    requires 0 <= x0 < ScreenWidth - UnitSize && x0 % UnitSize == 0
    requires n == (ScreenWidth - UnitSize - x0) / Step
    ensures n >= 1 && x0 + n * Step == RightRest + Step
  {
    var c := x0 / UnitSize;
    assert x0 == UnitSize * c;
    DivModUnique(ScreenWidth - UnitSize - x0, Step, 96 - 4 * c, 0);
  }

  /** After a gravity change to RIGHT, the square resting on the floor is
      moving again and slides to rest one step short of the right edge,
      keeping its height. */
  lemma RotatedSquareSlidesRight(x0: int, n: int)
    requires 0 <= x0 < ScreenWidth - UnitSize && x0 % UnitSize == 0
    requires n == (ScreenWidth - UnitSize - x0) / Step
    ensures ChangeGravity(Resting(x0), Right) == Sliding(x0)
    ensures n >= 1
    ensures Ticks(Sliding(x0), n) == Panel([Point(RightRest, Floor)], [], [0], Right, Step, 0)
  {
    StepsToRightWall(x0, n);
    SlideLands(x0, n);
  }

  /** A square three steps into a pair of coinciding static squares is
      stepped back once for each of them. */
  lemma SettleTwice(x0: int)
    ensures SettleAgainst(Point(x0, Floor - Step), [Point(x0, Floor), Point(x0, Floor)], 0, Step)
         == (Point(x0, Floor - 3 * Step), 2)
  {
    var base := Point(x0, Floor);
    assert [base, base][1..] == [base];
    assert [base][1..] == [];
    assert SettleAgainst(Point(x0, Floor - 3 * Step), [], 0, Step) == (Point(x0, Floor - 3 * Step), 0);
    assert SettleAgainst(Point(x0, Floor - 2 * Step), [base], 0, Step) == (Point(x0, Floor - 3 * Step), 1);
  }

  /** Each static square is tested at the position the earlier ones left
      the square at: a square overlapping two static squares on one spot by
      exactly one step is stepped back once, clear of the second. */
  lemma SettleSeesEarlierSteps()
    ensures SettleAgainst(Point(0, 100), [Point(0, 115), Point(0, 115)], 0, Step) == (Point(0, 95), 1)
  {
    var base := Point(0, 115);
    assert [base, base][1..] == [base];
    assert [base][1..] == [];
    assert SettleAgainst(Point(0, 95), [], 0, Step) == (Point(0, 95), 0);
    assert SettleAgainst(Point(0, 95), [base], 0, Step) == (Point(0, 95), 0);
  }

  /** A Rectangle listed twice in the moving list is resolved once per
      occurrence, the later occurrence from where the earlier one left it:
      at the floor line under DOWN the first occurrence triggers and steps
      back, and the second finds it clear of the boundary. */
  lemma ListedTwiceResolves(rects: seq<Point>, c: nat, x0: int)
    requires c < |rects| && rects[c] == Point(x0, ScreenHeight - UnitSize)
    ensures ResolveAll(rects, [c, c], [], Down, 0, Step) == (rects[c := Point(x0, Floor)], [c])
  {
    var settled := rects[c := Point(x0, Floor)];
    var ids := [c, c];
    assert ids[0] == c && ids[1..] == [c] && [c][1..] == [];
    assert Positions(rects, []) == [] && Positions(settled, []) == [];
    assert SettleAgainst(Point(x0, Floor), [], 0, Step) == (Point(x0, Floor), 0);
    // first occurrence: at the floor line, stepped back once
    var hit := Resolve(rects[c], Down, 0, Step, Positions(rects, []));
    assert hit == (Point(x0, Floor), 1);
    assert rects[c := hit.0] == settled;
    // second occurrence: read back from the arena, clear of the boundary
    assert Resolve(settled[c], Down, 0, Step, []) == (Point(x0, Floor), 0);
    assert settled[c := Point(x0, Floor)] == settled;
    assert Repeat(c, 0) == [] && Repeat(c, 1) == [c];
    assert ResolveAll(settled, [], [], Down, 0, Step) == (settled, []);
    var rest := ResolveAll(rects[c := hit.0], ids[1..], [], Down, 0, Step);
    assert rest.0 == settled;
    assert rest.1 == [];
    assert ResolveAll(rects, ids, [], Down, 0, Step).1 == Repeat(c, 1) + [];
    assert Repeat(c, 1) + [] == [c];
  }

  /** The whole check for that Rectangle: it is appended to the static list
      once, and both of its entries leave the moving list. */
  lemma ListedTwiceSettlesOnce(p: Panel, c: nat, x0: int)
    requires WellFormed(p) && p.squares == [c, c] && p.staticSquares == [] && c < |p.rects|
    requires p.gravityState == Down && p.gravityX == 0 && p.gravityY == Step
    requires p.rects[c] == Point(x0, ScreenHeight - UnitSize)
    ensures CheckCollisions(p) == p.(rects := p.rects[c := Point(x0, Floor)], squares := [], staticSquares := [c])
  {
    var settled := p.rects[c := Point(x0, Floor)];
    ListedTwiceResolves(p.rects, c, x0);
    assert EqualsSome(settled, c, [c]) by {
      assert [c][0] == c;
    }
    assert [c, c][1..] == [c] && [c][1..] == [];
    assert RemoveAll(settled, [c], [c]) == [];
    assert RemoveAll(settled, [c, c], [c]) == [];
    assert [] + [c] == [c];
  }

  /** Two static squares a and b on one spot of the floor, which spawning
      permits, and the only moving square id two steps above them: the
      square overlaps both after its move, is stepped back twice, ends two
      steps back, and the same Rectangle is appended to the static list
      twice. */
  lemma DoubleHitListedTwice(p: Panel, id: nat, a: nat, b: nat, x0: int)
    requires WellFormed(p) && p.squares == [id] && p.staticSquares == [a, b] && id < |p.rects|
    requires p.gravityState == Down && p.gravityX == 0 && p.gravityY == Step
    requires a < |p.rects| && b < |p.rects|
    requires p.rects[a] == Point(x0, Floor) && p.rects[b] == Point(x0, Floor)
    requires p.rects[id] == Point(x0, Floor - 2 * Step)
    ensures Tick(p) == p.(rects := p.rects[id := Point(x0, Floor - 3 * Step)], squares := [],
                          staticSquares := [a, b, id, id])
  {
    var base := Point(x0, Floor);
    assert Positions(p.rects, p.staticSquares) == [base, base];
    assert Advance(p.rects[id], 1, 0, Step) == Point(x0, Floor - Step);
    SettleTwice(x0);
    var hit := Hit(p, id, 1);
    assert hit == (Point(x0, Floor - 3 * Step), 2);
    assert Repeat(id, hit.1) == [id, id];
    assert p.staticSquares + Repeat(id, hit.1) == [a, b, id, id];
    SingleSquareTick(p, id);
  }

  /** The boundary test and the static list both trigger for one square:
      a square one step past the floor line, on top of a static square
      resting on that line, is stepped back for the boundary and once more
      for the static square. */
  lemma BoundaryThenStatic(x0: int)
    ensures Resolve(Point(x0, FloorLine + Step), Down, 0, Step, [Point(x0, FloorLine)]) == (Point(x0, Floor), 2)
  {
    assert AtBoundary(Point(x0, FloorLine + Step), Down);
    assert [Point(x0, FloorLine)][1..] == [];
    assert SettleAgainst(Point(x0, Floor), [], 0, Step) == (Point(x0, Floor), 0);
    assert SettleAgainst(Point(x0, FloorLine), [Point(x0, FloorLine)], 0, Step) == (Point(x0, Floor), 1);
  }

  /** A square spawned alone in grid row 34 or 35, at or below the floor
      line, triggers the boundary on its first tick and rests where it was
      spawned: at y = 680, or at y = 700 below the visible panel. */
  lemma LowRowRestsInPlace(p: Panel, id: nat, x0: int, y0: int)
    requires WellFormed(p) && p.squares == [id] && p.staticSquares == [] && id < |p.rects|
    requires p.gravityState == Down && p.gravityX == 0 && p.gravityY == Step
    requires p.rects[id] == Point(x0, y0) && y0 >= FloorLine
    ensures Tick(p) == p.(squares := [], staticSquares := [id])
  {
    assert Positions(p.rects, p.staticSquares) == [];
    assert Advance(p.rects[id], 1, 0, Step) == Point(x0, y0 + Step);
    assert SettleAgainst(Point(x0, y0), [], 0, Step) == (Point(x0, y0), 0);
    var hit := Hit(p, id, 1);
    assert hit == (Point(x0, y0), 1);
    assert Repeat(id, hit.1) == [id];
    assert p.rects[id := hit.0] == p.rects;
    SingleSquareTick(p, id);
  }

  /** Two squares spawned on one cell of the second-to-last grid row: the
      first, alone, triggers the boundary at once and rests on the floor
      line, y = 680; the second, falling one step past it, is stepped back
      twice, rests at y = 675 and is appended to the static list twice. */
  lemma SecondSquareOnRow34(p: Panel, id: nat, a: nat, x0: int)
    requires WellFormed(p) && p.squares == [id] && p.staticSquares == [a] && id < |p.rects|
    requires p.gravityState == Down && p.gravityX == 0 && p.gravityY == Step
    requires a < |p.rects| && p.rects[a] == Point(x0, FloorLine) && p.rects[id] == Point(x0, FloorLine)
    ensures Tick(p) == p.(rects := p.rects[id := Point(x0, Floor)], squares := [],
                          staticSquares := [a, id, id])
  {
    assert Positions(p.rects, p.staticSquares) == [Point(x0, FloorLine)];
    assert Advance(p.rects[id], 1, 0, Step) == Point(x0, FloorLine + Step);
    BoundaryThenStatic(x0);
    var hit := Hit(p, id, 1);
    assert hit == (Point(x0, Floor), 2);
    assert Repeat(id, hit.1) == [id, id];
    assert p.staticSquares + Repeat(id, hit.1) == [a, id, id];
    SingleSquareTick(p, id);
  }

  /** A Rectangle listed twice in the static list is listed twice in the
      moving list after a gravity change, and so travels two steps on the
      next move while the squares listed once travel one. */
  lemma AliasedSquareMovesTwice(p: Panel, a: nat, b: nat, c: nat, d: Direction)
    requires WellFormed(p) && p.squares == [] && p.staticSquares == [a, b, c, c]
    requires a != c && b != c && a != b
    ensures ChangeGravity(p, d).squares == [a, b, c, c]
    ensures var v := Vector(d);
            var moved := MoveCurrentSquares(ChangeGravity(p, d)).rects;
            && moved[a] == Translate(p.rects[a], v.x, v.y)
            && moved[b] == Translate(p.rects[b], v.x, v.y)
            && moved[c] == Translate(p.rects[c], 2 * v.x, 2 * v.y)
  {
    var v := Vector(d);
    var released := ChangeGravity(p, d);
    assert released.squares == [a, b, c, c];
    assert released.gravityX == v.x && released.gravityY == v.y;
    CountAliased(a, b, c);
    AdvanceOnceOrTwice(p.rects[a], v.x, v.y);
    AdvanceOnceOrTwice(p.rects[b], v.x, v.y);
    AdvanceOnceOrTwice(p.rects[c], v.x, v.y);
    var moved := MoveCurrentSquares(released).rects;
    assert moved[a] == Advance(p.rects[a], 1, v.x, v.y);
    assert moved[b] == Advance(p.rects[b], 1, v.x, v.y);
    assert moved[c] == Advance(p.rects[c], 2, v.x, v.y);
  }

  lemma AdvanceOnceOrTwice(q: Point, dx: int, dy: int)
    ensures Advance(q, 1, dx, dy) == Translate(q, dx, dy)
    ensures Advance(q, 2, dx, dy) == Translate(q, 2 * dx, 2 * dy)
  {
  }

  lemma CountAliased(a: nat, b: nat, c: nat)
    requires a != c && b != c && a != b
    ensures multiset([a, b, c, c])[a] == 1 && multiset([a, b, c, c])[b] == 1 && multiset([a, b, c, c])[c] == 2
  {
    assert multiset([a, b, c, c]) == multiset{a} + multiset{b} + multiset{c} + multiset{c};
  }

  /** The lower of two adjacent moving squares overlaps the resting square
      after its move and is stepped back on top of it. */
  lemma LowerSquareSettles(x0: int)
    ensures Resolve(Point(x0, OnTop + Step), Down, 0, Step, [Point(x0, Floor)]) == (Point(x0, OnTop), 1)
  {
    assert [Point(x0, Floor)][1..] == [];
    assert SettleAgainst(Point(x0, OnTop), [], 0, Step) == (Point(x0, OnTop), 0);
  }

  /** The upper one ends on the cell on top of the resting square without
      touching it. */
  lemma UpperSquareIsFree(x0: int)
    ensures Resolve(Point(x0, OnTop), Down, 0, Step, [Point(x0, Floor)]) == (Point(x0, OnTop), 0)
  {
    assert [Point(x0, Floor)][1..] == [];
    assert SettleAgainst(Point(x0, OnTop), [], 0, Step) == (Point(x0, OnTop), 0);
  }

  /** The squares appended to a static list [s] by a tick in which, of the
      moving squares lo and hi, only lo settled, once. */
  lemma OnlyLoAppended(statics: seq<nat>, s: nat, lo: nat, hi: nat)
    requires |statics| >= 1 && statics[0] == s && s != lo && s != hi
    requires forall j :: 1 <= j < |statics| ==> statics[j] in [lo, hi]
    requires multiset(statics)[lo] == 1 && multiset(statics)[hi] == 0
    ensures statics == [s, lo]
  {
    var added := statics[1..];
    assert statics == [s] + added;
    assert multiset(added)[lo] == 1;
    forall j | 0 <= j < |added| ensures added[j] == lo {
      assert added[j] in multiset(statics);
    }
    AllEqualCount(added, lo);
  }

  /** What is left after a tick in which lo settled once, hi did not
      settle, and both ended at one spot, stated on the facts Tick and
      TickPerSquare guarantee. */
  lemma SettledPairShape(p: Panel, r: Panel, s: nat, lo: nat, hi: nat, spot: Point)
    requires WellFormed(p) && p.squares == [lo, hi] && p.staticSquares == [s] && lo != hi
    requires lo < |p.rects| && hi < |p.rects|
    requires WellFormed(r) && |r.rects| == |p.rects| && r.rects[lo] == spot && r.rects[hi] == spot
    requires |r.staticSquares| >= 1 && r.staticSquares[..1] == [s]
    requires forall j :: 1 <= j < |r.staticSquares| ==> r.staticSquares[j] in p.squares
    requires multiset(r.staticSquares)[lo] == 1 && multiset(r.staticSquares)[hi] == 0
    requires multiset(r.squares) <= multiset(p.squares)
    requires hi in r.squares <==> !EqualsSome(r.rects, hi, r.staticSquares[1..])
    requires lo !in r.squares
    ensures r.squares == [] && r.staticSquares == [s, lo]
  {
    assert r.staticSquares[0] == s;
    assert s != lo && s != hi;
    OnlyLoAppended(r.staticSquares, s, lo, hi);
    var added := r.staticSquares[1..];
    assert added == [lo];
    assert r.rects[added[0]] == r.rects[hi];
    assert hi !in r.squares;
    NoneKept(r.squares, p.squares);
  }

  /** removeAll compares by position: with a square s resting on the floor,
      a moving square lo on the cell above it and a moving square hi one
      step above lo, lo is stepped back after its move and settles, while hi
      triggers nothing but ends where lo ends, and is dropped from the
      moving list without joining the static list. */
  lemma ValueEqualSquareIsDropped(p: Panel, s: nat, lo: nat, hi: nat, x0: int)
    requires WellFormed(p) && p.squares == [lo, hi] && p.staticSquares == [s] && lo != hi
    requires p.gravityState == Down && p.gravityX == 0 && p.gravityY == Step
    requires s < |p.rects| && lo < |p.rects| && hi < |p.rects|
    requires p.rects[s] == Point(x0, Floor) && p.rects[lo] == Point(x0, OnTop)
    requires p.rects[hi] == Point(x0, OnTop - Step)
    ensures Tick(p).rects[lo] == Point(x0, OnTop) && Tick(p).rects[hi] == Point(x0, OnTop)
    ensures Tick(p).squares == []
    ensures Tick(p).staticSquares == [s, lo]
  {
    var others := Positions(p.rects, p.staticSquares);
    assert others == [Point(x0, Floor)];
    assert NoDuplicates(p.squares);
    assert Translate(p.rects[lo], 0, Step) == Point(x0, OnTop + Step);
    assert Translate(p.rects[hi], 0, Step) == Point(x0, OnTop);
    LowerSquareSettles(x0);
    UpperSquareIsFree(x0);
    var r := Tick(p);
    TickPerSquare(p, 0);
    TickPerSquare(p, 1);
    SettledPairShape(p, r, s, lo, hi, Point(x0, OnTop));
  }
}

=== FILE: simulation.dfy ===
/** Sequences of ticks and input events driven from outside the panel, and
    what they do to a single moving square: free fall and coming to rest. */
module Simulation {
  import opened Geometry
  import opened Gravity
  import opened SandPanel

  /** What the run loop, the spawn timer and the key listener feed in. */
  datatype Event = SpawnAt(x: int, y: int) | TickOnce | Press(code: int)

  function Apply(p: Panel, e: Event): (r: Panel)
    requires Valid(p)
    ensures Valid(r)
  {
    match e
    case SpawnAt(x, y) => Spawn(p, x, y)
    case TickOnce => Tick(p)
    case Press(code) => KeyPressed(p, code)
  }

  /** Any interleaving of events keeps the state invariant, so every state
      reachable from the initial panel is Valid. */
  function Run(p: Panel, events: seq<Event>): (r: Panel)
    requires Valid(p)
    ensures Valid(r)
    ensures |r.rects| >= |p.rects|
    decreases |events|
  {
    if |events| == 0 then p else Run(Apply(p, events[0]), events[1..])
  }

  /** n ticks in a row. */
  function Ticks(p: Panel, n: nat): (r: Panel)
    requires WellFormed(p)
    ensures WellFormed(r)
    ensures r.gravityState == p.gravityState && r.gravityX == p.gravityX && r.gravityY == p.gravityY
    decreases n
  {
    if n == 0 then p else Tick(Ticks(p, n - 1))
  }

  /** The last of t1 + 1 ticks. */
  lemma TicksSucc(p: Panel, t1: nat, t: nat)
    requires WellFormed(p) && t == t1 + 1
    ensures Ticks(p, t) == Tick(Ticks(p, t1))
  {
    assert t - 1 == t1;
  }

  /** A moving square at q triggers nothing: not at the boundary and clear of
      every static square. */
  predicate Free(p: Panel, q: Point)
    requires WellFormed(p)
  {
    && !AtBoundary(q, p.gravityState)
    && forall j :: 0 <= j < |p.staticSquares| ==> !Intersects(q, p.rects[p.staticSquares[j]])
  }

  /** Where square id ends, and how often it triggers, when it is resolved
      k steps ahead of its position in p. */
  function Hit(p: Panel, id: nat, k: nat): (Point, nat)
    requires WellFormed(p) && id < |p.rects|
  {
    Resolve(Advance(p.rects[id], k, p.gravityX, p.gravityY), p.gravityState, p.gravityX, p.gravityY,
            Positions(p.rects, p.staticSquares))
  }

  lemma AllEqualCount(s: seq<nat>, id: nat)
    requires forall j :: 0 <= j < |s| ==> s[j] == id
    ensures multiset(s)[id] == |s|
    ensures s == Repeat(id, |s|)
  {
    if |s| > 0 {
      assert s == s[..|s| - 1] + [id];
      AllEqualCount(s[..|s| - 1], id);
    }
  }

  lemma SubOfSingleton(s: seq<nat>, id: nat)
    requires multiset(s) <= multiset([id])
    ensures s == [] || s == [id]
  {
    forall j | 0 <= j < |s| ensures s[j] == id {
      assert s[j] in multiset(s);
    }
    AllEqualCount(s, id);
  }

  /** What a tick with a single moving square can leave behind, stated on
      the facts Tick guarantees. */
  lemma SingleSquareShape(p: Panel, r: Panel, id: nat, hit: (Point, nat))
    requires WellFormed(p) && p.squares == [id] && id < |p.rects|
    requires r.gravityState == p.gravityState && r.gravityX == p.gravityX && r.gravityY == p.gravityY
    requires |r.rects| == |p.rects| && r.rects[id] == hit.0
    requires forall k :: 0 <= k < |p.rects| && k !in p.squares ==> r.rects[k] == p.rects[k]
    requires |p.staticSquares| <= |r.staticSquares| && r.staticSquares[..|p.staticSquares|] == p.staticSquares
    requires forall j :: |p.staticSquares| <= j < |r.staticSquares| ==> r.staticSquares[j] in p.squares
    requires multiset(r.staticSquares)[id] == hit.1
    requires multiset(r.squares) <= multiset(p.squares)
    requires r.rects[id] in r.rects && id < |r.rects|
    requires IdsIn(r.staticSquares, |r.rects|)
    requires id in r.squares <==> !EqualsSome(r.rects, id, r.staticSquares[|p.staticSquares|..])
    requires hit.1 > 0 ==> id !in r.squares
    ensures r == p.(rects := p.rects[id := hit.0], squares := if hit.1 == 0 then [id] else [],
                    staticSquares := p.staticSquares + Repeat(id, hit.1))
  {
    assert r.rects == p.rects[id := hit.0];
    var added := r.staticSquares[|p.staticSquares|..];
    assert forall j :: 0 <= j < |added| ==> added[j] == id;
    assert id !in p.staticSquares;
    assert r.staticSquares == p.staticSquares + added;
    AllEqualCount(added, id);
    assert multiset(r.staticSquares) == multiset(p.staticSquares) + multiset(added);
    assert added == Repeat(id, hit.1);
    if hit.1 == 0 {
      SubOfSingleton(r.squares, id);
    } else {
      assert r.squares == [] by {
        assert multiset(r.squares) <= multiset([id]);
      }
    }
  }

  /** One tick with a single moving square: it moves one step and is
      resolved; if it hit something it leaves the moving list and is
      appended to the static list once per hit. */
  lemma SingleSquareTick(p: Panel, id: nat)
    requires WellFormed(p) && p.squares == [id] && id < |p.rects|
    ensures Tick(p) == p.(rects := p.rects[id := Hit(p, id, 1).0],
                          squares := if Hit(p, id, 1).1 == 0 then [id] else [],
                          staticSquares := p.staticSquares + Repeat(id, Hit(p, id, 1).1))
  {
    var r := Tick(p);
    assert Advance(p.rects[id], 1, p.gravityX, p.gravityY) == Translate(p.rects[id], p.gravityX, p.gravityY);
    TickPerSquare(p, 0);
    SingleSquareShape(p, r, id, Hit(p, id, 1));
  }

  /** A free position is not a hit, and the square simply arrives there. */
  lemma FreeIsQuiet(p: Panel, id: nat, k: nat)
    requires WellFormed(p) && id < |p.rects|
    requires Free(p, Advance(p.rects[id], k, p.gravityX, p.gravityY))
    ensures Hit(p, id, k) == (Advance(p.rects[id], k, p.gravityX, p.gravityY), 0)
  {
  }

  /** The panel after the only moving square has moved one step without
      triggering anything. */
  function Stepped(p: Panel, id: nat): (r: Panel)
    requires WellFormed(p) && id < |p.rects|
    ensures r.gravityState == p.gravityState && r.gravityX == p.gravityX && r.gravityY == p.gravityY
    ensures r.squares == p.squares && r.staticSquares == p.staticSquares
    ensures |r.rects| == |p.rects| && r.rects[id] == Translate(p.rects[id], p.gravityX, p.gravityY)
  {
    p.(rects := p.rects[id := Advance(p.rects[id], 1, p.gravityX, p.gravityY)])
  }

  lemma UpdateTwice(s: seq<Point>, i: nat, a: Point, b: Point)
    requires i < |s|
    ensures s[i := a][i := b] == s[i := b]
  {
  }

  /** A tick whose one step lands on a free position only moves the square. */
  lemma QuietTick(p: Panel, id: nat)
    requires WellFormed(p) && p.squares == [id] && id < |p.rects|
    requires Free(p, Advance(p.rects[id], 1, p.gravityX, p.gravityY))
    ensures Tick(p) == Stepped(p, id)
  {
    SingleSquareTick(p, id);
    FreeIsQuiet(p, id, 1);
  }

  /** p with its square id moved t steps. */
  function Fallen(p: Panel, id: nat, t: nat): (r: Panel)
    requires id < |p.rects|
    ensures r.squares == p.squares && r.staticSquares == p.staticSquares
    ensures r.gravityState == p.gravityState && r.gravityX == p.gravityX && r.gravityY == p.gravityY
    ensures |r.rects| == |p.rects| && r.rects[id] == Advance(p.rects[id], t, p.gravityX, p.gravityY)
    ensures forall k :: 0 <= k < |p.rects| && k != id ==> r.rects[k] == p.rects[k]
  {
    p.(rects := p.rects[id := Advance(p.rects[id], t, p.gravityX, p.gravityY)])
  }

  lemma FallenZero(p: Panel, id: nat)
    requires id < |p.rects|
    ensures Fallen(p, id, 0) == p
  {
    assert p.rects[id := p.rects[id]] == p.rects;
  }

  /** After t1 quiet steps the square looks one step ahead to where p looks
      t1 + 1 steps ahead, against the same static squares. */
  lemma FallenFacts(p: Panel, id: nat, t1: nat, t: nat)
    requires WellFormed(p) && p.squares == [id] && id < |p.rects| && t == t1 + 1
    ensures WellFormed(Fallen(p, id, t1)) && Fallen(p, id, t1).squares == [id]
    ensures Hit(Fallen(p, id, t1), id, 1) == Hit(p, id, t)
    ensures Free(Fallen(p, id, t1), Advance(p.rects[id], t, p.gravityX, p.gravityY))
        <==> Free(p, Advance(p.rects[id], t, p.gravityX, p.gravityY))
    ensures Stepped(Fallen(p, id, t1), id) == Fallen(p, id, t)
  {
    var f := Fallen(p, id, t1);
    var a := Advance(p.rects[id], t, p.gravityX, p.gravityY);
    assert Advance(f.rects[id], 1, p.gravityX, p.gravityY) == a;
    forall j | 0 <= j < |p.staticSquares| ensures f.rects[p.staticSquares[j]] == p.rects[p.staticSquares[j]] {
      assert p.squares[0] != p.staticSquares[j];
    }
    assert Positions(f.rects, p.staticSquares) == Positions(p.rects, p.staticSquares);
    UpdateTwice(p.rects, id, f.rects[id], a);
  }

  /** A tick that lands on a free position adds one step to the fall. */
  lemma FallenStep(p: Panel, id: nat, t1: nat, t: nat)
    requires WellFormed(p) && p.squares == [id] && id < |p.rects| && t == t1 + 1
    requires Free(p, Advance(p.rects[id], t, p.gravityX, p.gravityY))
    ensures WellFormed(Fallen(p, id, t1))
    ensures Tick(Fallen(p, id, t1)) == Fallen(p, id, t)
  {
    FallenFacts(p, id, t1, t);
    QuietTick(Fallen(p, id, t1), id);
  }

  /** A tick that triggers after the fall settles the square. */
  lemma FallenHit(p: Panel, id: nat, t1: nat, t: nat)
    requires WellFormed(p) && p.squares == [id] && id < |p.rects| && t == t1 + 1
    requires Hit(p, id, t).1 > 0
    ensures WellFormed(Fallen(p, id, t1))
    ensures Tick(Fallen(p, id, t1)) == p.(rects := p.rects[id := Hit(p, id, t).0], squares := [],
                                         staticSquares := p.staticSquares + Repeat(id, Hit(p, id, t).1))
  {
    var f := Fallen(p, id, t1);
    FallenFacts(p, id, t1, t);
    UpdateTwice(p.rects, id, f.rects[id], Hit(p, id, t).0);
    SingleSquareTick(f, id);
  }

  /** While every step lands on a free position, the only moving square just
      falls: after t ticks it has moved t steps and nothing else changed. */
  lemma {:induction false} FreeFall(p: Panel, id: nat, t: nat)
    requires WellFormed(p) && p.squares == [id] && id < |p.rects|
    requires forall k :: 1 <= k <= t ==> Free(p, Advance(p.rects[id], k, p.gravityX, p.gravityY))
    ensures Ticks(p, t) == Fallen(p, id, t)
    decreases t
  {
    if t == 0 {
      FallenZero(p, id);
    } else {
      var t1 := t - 1;
      FallenStep(p, id, t1, t);
      FreeFall(p, id, t1);
      TicksSucc(p, t1, t);
    }
  }

  /** The only moving square falls freely for n - 1 ticks and triggers on
      the n-th: it comes to rest where its hits stepped it back to. */
  lemma {:induction false} FallThenRest(p: Panel, id: nat, n: nat)
    requires WellFormed(p) && p.squares == [id] && id < |p.rects| && n >= 1
    requires forall k :: 1 <= k < n ==> Free(p, Advance(p.rects[id], k, p.gravityX, p.gravityY))
    requires Hit(p, id, n).1 > 0
    ensures Ticks(p, n) == p.(rects := p.rects[id := Hit(p, id, n).0], squares := [],
                              staticSquares := p.staticSquares + Repeat(id, Hit(p, id, n).1))
  {
    var n1 := n - 1;
    FallenHit(p, id, n1, n);
    FreeFall(p, id, n1);
    TicksSucc(p, n1, n);
  }
}
